=== FILE: README.md ===
# RetroArch-TUI launcher, modelled in Dafny

RetroArch-TUI is a terminal launcher for the RetroArch emulator. A system
menu lists the configured systems, each with a libretro core and a ROM
directory. Choosing a system opens its game menu, which lists the ROM
directory. Both menus narrow their list as the user types a filter query;
the game menu also takes `/text` as a substring search. Choosing a game
builds the command `retroarch -L <core> <content>` and runs it. In folder
mode each game is a directory, and the launcher picks one file inside it by
a fixed order of preferred extensions.

This project models that core as pure functions over immutable data:

- `Runtime`: the pieces of Python the code leans on. Exceptions become
  `Raised` values. Python's floor `%` is `FloorMod`, and `list[i]` with
  negative indices is `PyIndex`.
- `Text`: ASCII `lower()`, `startswith`, `endswith`, the substring test `in`,
  and POSIX `os.path.join`.
- `Sorting`: `sorted` over strings, in code-point order.
- `Lister`: the game menu's directory listing (`retroarch_tui.py:46-58`).
- `Filter`: the two list comprehensions that filter the menus.
- `Keys`: the two if/elif chains that decode a key code into an action.
- `Navigation`: the cursor moves and the query edit.
- `Scroll`: the two scroll windows.
- `Launch`: the folder-mode resolver and the command line.
- `GameMenu`, `SystemMenu`: one iteration of each menu loop as a step
  function from a state and a key press to an outcome, and runs over key
  sequences.
- `Scenario`: one concrete path from listing to command line.

Each step function takes the terminal height read in that iteration,
because the page size is computed from it. The only requirement a step
makes is that the page is at least one row: 6 rows of terminal in the game
menu, 7 in the system menu.

Two behaviours follow the code exactly:

- Of the listing errors, only a missing ROM directory gives an empty game
  list. Any other listing error (permission denied, not a directory)
  escapes the menu.
- In the game menu, the reset after each key sends the cursor off
  "<< Back" whenever an entry is kept. This is modelled as written, and
  also logged under "## Findings".

## Model

| member | source | states |
|---|---|---|
| Runtime.FloorMod | retroarch_tui.py:81-83 | Python's `%` with a positive modulus: the result lies in `[0, n)`, is `a` itself when `a` is in range, adds `n` to an `a` in `[-n, 0)`, and wraps `n` to 0 |
| Runtime.PyIndex | retroarch_tui.py:211 | indexing raises exactly when the index is outside `[-len, len)`; a negative index counts from the end |
| Text.Contains | retroarch_tui.py:135 | the substring test holds exactly when the needle occurs at some position of the text |
| Text.Join | retroarch_tui.py:114 | joining onto an absolute second part gives that part; otherwise the parts are joined with exactly one `/` added when the first part is non-empty and does not already end in `/` |
| Text.KeepsLowercase | retroarch_tui.py:55 | lower-casing leaves a string with no ASCII capitals unchanged |
| Sorting.Sort | retroarch_tui.py:48-56 | the sorted list is ordered and is a permutation of its input |
| Sorting.LexLeTotal | retroarch_tui.py:102 | any two names are ordered one way or the other |
| Sorting.LexLeAntisymmetric | retroarch_tui.py:102 | names ordered both ways are equal |
| Sorting.LexLeTransitive | retroarch_tui.py:102 | the string order is transitive |
| Sorting.FirstIsLeast | retroarch_tui.py:102-105 | in a sorted list an earlier name is at most every later one |
| Lister.OfferedNames | retroarch_tui.py:47-56 | a name is offered exactly when some entry carrying it is a directory (folder mode) or a regular file with a recognised extension (flat mode) |
| Lister.ListEntries | retroarch_tui.py:46-58 | a missing directory lists as empty; any other listing error raises; otherwise the list is sorted and holds exactly the offered names, each as often as the directory offers it |
| Filter.Keep | retroarch_tui.py:235-238 | a comprehension keeps a subsequence of its input, exactly the items passing the test, each with its full multiplicity |
| Filter.KeepIdempotent | retroarch_tui.py:235-238 | filtering twice by the same test keeps what filtering once keeps |
| Filter.KeepEverything | retroarch_tui.py:235-238 | when every item passes, the comprehension returns its input |
| Filter.GameFilter | retroarch_tui.py:133-137 | the game list keeps its order; without a leading `/` it holds exactly the entries whose lower-cased name starts with the lower-cased query; with one, exactly those containing the lower-cased rest of the query; duplicates are kept or dropped together |
| Filter.SystemFilter | retroarch_tui.py:235-238 | the system list keeps its order and holds exactly the systems whose lower-cased name starts with the lower-cased query, with no substring mode |
| Filter.GameFilterIdempotent | retroarch_tui.py:133-137 | re-filtering a filtered game list by the same query changes nothing |
| Filter.SystemFilterIdempotent | retroarch_tui.py:235-238 | re-filtering a filtered system list by the same query changes nothing |
| Filter.GameFilterKeepsAll | retroarch_tui.py:60-61 | the empty query and the bare `/` both show every entry, so the menu's first list is the filter of the empty query |
| Filter.SystemFilterKeepsAll | retroarch_tui.py:163 | the empty query shows every system |
| Keys.DecodeGame | retroarch_tui.py:80-131 | up is `KEY_UP` or `k`, down is `KEY_DOWN` or `j`, each page and jump key is its own code, Enter is 10 or 13, Escape or `q` leaves, the three backspace codes erase, and exactly the printable codes other than `q`, `j` and `k` extend the query |
| Keys.DecodeSystem | retroarch_tui.py:198-233 | the system menu decodes as the game menu does, except that `r` runs the emulator and `h` shows help, so neither extends the query |
| Navigation.MoveCursor | retroarch_tui.py:80-91 | up and down wrap around the list (down from -1 reaches the top; up from -1 reaches the second-last row, or the only row when one is kept); page down moves one page down but stops at the last row, and page up one page up but stops at the first; Home goes to the top and End to the last row; from a row of a non-empty list every move stays on a row |
| Navigation.UpDownInverse | retroarch_tui.py:80-83 | on every row of a non-empty list, up undoes down and down undoes up |
| Navigation.DropLast | retroarch_tui.py:128-129 | backspace removes the query's last character, and the empty query stays empty |
| Navigation.DropLastUndoesAppend | retroarch_tui.py:128-131 | backspace undoes the character just typed |
| Scroll.FollowScroll | retroarch_tui.py:67-75 | for a cursor on a row, the game window holds the cursor and does not run past the list |
| Scroll.FollowScrollStable | retroarch_tui.py:69-73 | a window already holding the cursor does not move |
| Scroll.CenteredScroll | retroarch_tui.py:166-170 | the system window never runs past the list, and holds the cursor when it is on a row |
| Launch.FirstWithExt | retroarch_tui.py:102-105 | the inner search finds the first name with the extension, ignoring case, and reports none only when no name has it |
| Launch.ResolveFrom | retroarch_tui.py:100-107 | the search stops at the first extension some name carries, and on the first name in sorted order carrying it |
| Launch.Resolve | retroarch_tui.py:97-108 | nothing resolves exactly when no name carries a preferred extension; otherwise the result is a name of the folder carrying the earliest extension any name carries, and the least such name |
| Launch.IsoBeatsBin | retroarch_tui.py:100-107 | a folder holding an `.iso` and a `.bin` launches the `.iso`, whatever the names' stems |
| Launch.SoleBinResolves | retroarch_tui.py:100-107 | a folder whose only file is a `.bin` launches it |
| Launch.GameCommand | retroarch_tui.py:117 | the launch command has four arguments: the emulator, `-L`, the core, then the content file |
| Launch.PlanLaunch | retroarch_tui.py:97-117 | the command is always the emulator, `-L` and the expanded core; in flat mode the content is the entry joined onto the ROM directory; in folder mode an unlistable folder raises, nothing launches exactly when the folder carries no preferred extension, and otherwise the content is the resolved name inside the entry's folder |
| GameMenu.Start | retroarch_tui.py:60-63 | the menu starts on the first row of the full list, in a state the loop can be in |
| GameMenu.Refilter | retroarch_tui.py:133-140 | after the re-filter the list is current for the query, and the cursor stays unless it is past the kept entries, when it goes to the top |
| GameMenu.Apply | retroarch_tui.py:80-140 | Escape or `q` leaves; Enter takes the back row exactly when the cursor is on it and otherwise the entry under the cursor; every other key edits or keeps the query and re-filters; with the back row reachable, End and up from the top land on it; where every other key leaves the cursor is stated by the two lemmas below |
| GameMenu.ApplyMovesCursor | retroarch_tui.py:80-92 | a move key leaves the cursor where `Navigation.MoveCursor` sends it over the rows, unless the reset after the re-filter sends it to the top; End also scrolls to the last page, and every other move keeps the window |
| GameMenu.ApplyKeepsCursor | retroarch_tui.py:128-140 | typing, backspace and any unbound key keep the cursor and the window, unless the reset after the re-filter sends the cursor to the top |
| GameMenu.Step | retroarch_tui.py:65-140 | one iteration as written never raises, keeps the list current and the cursor on a kept entry, takes the back row only when nothing is kept, and launches the entry under the cursor |
| GameMenu.StepIntended | retroarch_tui.py:139-140 | with the reset moved one row down, an iteration keeps the cursor on a row, never raises, takes "<< Back" exactly when the cursor is on it, and End or up from the top reach it |
| GameMenu.RunKeepsInvariant | retroarch_tui.py:65-140 | over any sequence of keys, as written or corrected, the menu never raises, keeps its invariant, and the slice passed to `draw_menu` at each iteration holds the cursor |
| GameMenu.QueryHidesLastSlot | retroarch_tui.py:19-32 | with more entries kept than the window holds, Down from the window's last row scrolls by one and leaves the cursor in the slice's last slot, which `draw_menu` draws exactly when no query is shown |
| GameMenu.EndSkipsBack | retroarch_tui.py:90-95 | as written, End with one entry kept leaves the cursor on the entry, not on "<< Back"; corrected, it lands on "<< Back" and Enter then leaves the menu |
| SystemMenu.Start | retroarch_tui.py:151-164 | the menu starts on the first of all systems, in a state the loop can be in |
| SystemMenu.Window | retroarch_tui.py:166-170 | the window drawn holds the cursor whenever the cursor is on a row, and never runs past the list |
| SystemMenu.Refilter | retroarch_tui.py:235-240 | after the re-filter the list is current; a cursor on a row stays, one past the end goes to the top, and a negative one stays negative as written |
| SystemMenu.Apply | retroarch_tui.py:198-240 | Escape or `q` quits, `r` and `h` return to the loop; up, down or Enter with nothing kept raises and nothing else does; Enter opens the system under the cursor, and at cursor -1 the last system; where every other key leaves the cursor is stated by the lemmas below |
| SystemMenu.Navigate | retroarch_tui.py:198-209 | a move key raises exactly when it is up or down with nothing kept; otherwise the cursor stays below the end of the kept systems and never goes below -1 (below 0 when negative cursors are reset) |
| SystemMenu.ApplyMovesCursor | retroarch_tui.py:198-209 | with a system kept, or for a move other than up and down, a move key leaves the cursor where `Navigation.MoveCursor` sends it over the kept systems, unless the reset after the re-filter sends it to the top |
| SystemMenu.ApplyKeepsCursor | retroarch_tui.py:210-240 | every other key that comes back to the loop keeps the cursor, unless the reset after the re-filter sends it to the top; as written a negative cursor survives the reset |
| SystemMenu.Step | retroarch_tui.py:165-240 | one iteration as written keeps the list current and the cursor in `[-1, max(1, len))`, raises exactly when nothing is kept and the key needs a row, and opens only a kept system |
| SystemMenu.StepIntended | retroarch_tui.py:239-240 | with negative cursors also reset, an iteration keeps the cursor non-negative, and Enter opens exactly the system the window highlights |
| SystemMenu.RunKeepsInvariant | retroarch_tui.py:165-240 | over any sequence of keys, as written or corrected, the invariant holds at every return to the loop |
| SystemMenu.RunRaisesOnlyWithoutRows | retroarch_tui.py:198-211 | a run of keys none of which is up, down or Enter never raises, whatever the filter keeps |
| SystemMenu.HiddenCursorOpensLast | retroarch_tui.py:208-240 | as written, typing an unmatched `x`, End and backspace leaves the cursor at -1, above the window, and Enter then opens the last system |
| SystemMenu.ClampedCursorOpensFirst | retroarch_tui.py:239-240 | corrected, the same keys leave the cursor on the first system, and Enter opens it |
| Scenario.ListsBoth | retroarch_tui.py:53-56 | a flat directory reporting `b.smc` before `a.nes` lists them as `a.nes`, `b.smc` |
| Scenario.FilterB | retroarch_tui.py:136-137 | the query `b` keeps `b.smc` alone |
| Scenario.TypingBKeepsB | retroarch_tui.py:130-140 | typing `b` in a fresh game menu keeps `b.smc` alone, on the first row |
| Scenario.EnterLaunchesB | retroarch_tui.py:93-117 | Enter on `b.smc` chooses it, and in flat mode it runs as the ROM directory's `b.smc` under the system's core |

## Left out

- Drawing: `draw_menu`, the system menu's rows and colours, the footer and `show_help`. None of them changes the menus' state; `h` is the outcome `ShowedHelp`. Of the drawing, only the number of slice rows `draw_menu` shows is modelled (`GameMenu.DrawnRows`).
- Loading `config.json`. The emulator path and the list of `Config.SystemConfig` records are given as parameters. The `retroarch_path` default of `retroarch` and the `folder_mode` default of false are the caller's business.
- `os.path.expanduser` is a parameter of `Launch.PlanLaunch`.
- `os.listdir`, `isfile` and `isdir` are the `Lister.Directory` values. The source lists a game's folder once per preferred extension; the model assumes every listing sees the same names.
- `subprocess.run`, the messages printed, and the `input` pauses. A failure to run the emulator is caught and reported by the source, and the game menu ends either way, so a plan that runs always ends the game menu. The command behind `r` (`retroarch_tui.py:221`) is the emulator alone; the outcome `RanEmulator` records only that it was started.
- The top-level exception handler. A `Crashed` or `Raised` outcome ends the model where the handler would take over.
- The composition of the two menus. `SystemMenu.Opened` stands for the game menu having returned; an exception inside the game menu propagates through the system menu, and that path is not composed.
- The display and core-basename fields built for each system. Only drawing uses them; the model filters the system records directly on their names.
- GameMenu.RunKeepsInvariant: promises that the slice handed to `draw_menu` holds the cursor, not that a drawn row does. While a query is shown, `draw_menu` starts one row lower and still stops two rows above the bottom, so it draws one row fewer than the slice holds. A cursor in the slice's last slot is then not drawn (`GameMenu.QueryHidesLastSlot`).
- Filter.GameFilter: lower-casing covers ASCII letters only, not full Unicode case mapping.
- Filter.SystemFilter: lower-casing covers ASCII letters only, as above.
- Terminal heights that leave no list row (below 6 rows for the game menu, 7 for the system menu). There `visible_items` is zero or negative, so page down can move the cursor up, even below 0; every step requires at least one list row.
- Terminal resizing between the read of the height and the key: each press carries the height the iteration read.
- Python's sort is stable. For strings, equal keys are equal values, so stability cannot be observed.

## Findings

| source | as written | input that shows it | evidently intended | confidence | as-written member | corrected member |
|---|---|---|---|---|---|---|
| retroarch_tui.py:139-140 | after every key the cursor goes to the top when it is at or past the number of kept entries, which is the index of "<< Back" | one entry kept, press End: the cursor lands on "<< Back" and is reset onto the entry, so Enter launches instead of leaving | reset only past the last row, so "<< Back" can be selected | medium; not executed | GameMenu.EndSkipsBack | GameMenu.StepIntended |
| retroarch_tui.py:208-209, 239-240 | End or page down with no system kept sets the cursor to -1, and the reset catches only indices past the end | with no system name starting with `x`: type `x`, End, backspace; no row is highlighted, and Enter opens the last system | reset negative cursors to the top as well | medium; not executed | SystemMenu.HiddenCursorOpensLast | SystemMenu.StepIntended |

=== FILE: config.dfy ===
/** The launcher's configuration, read once at start-up and passed in
    explicitly instead of being held in module globals. */
module Config {

  /** One entry of `systems`: its display name, the libretro core file, the
      ROM directory, and whether each game is a folder rather than a file. */
  datatype SystemConfig = SystemConfig(name: string, core: string, roms: string, folderMode: bool)
}

=== FILE: filter.dfy ===
/** The filter engine. Both menus recompute their visible list from the full
    list on every key with a list comprehension, so filtering keeps the
    matching items in their original order. */
module Filter {
  import opened Text
  import opened Config

  /** a can be obtained from b by deleting items. */
  predicate IsSubsequence<T(==)>(a: seq<T>, b: seq<T>)
    decreases |b|
  {
    |a| == 0 || (|b| > 0 && ((a[0] == b[0] && IsSubsequence(a[1..], b[1..])) || IsSubsequence(a, b[1..])))
  }

  /** `[x for x in s if p(x)]`. */
  function Keep<T(==,!new)>(s: seq<T>, p: T -> bool): (r: seq<T>)
    ensures IsSubsequence(r, s)
    ensures forall x :: x in r <==> x in s && p(x)
    ensures forall x :: multiset(r)[x] == if p(x) then multiset(s)[x] else 0
  {
    if |s| == 0 then []
    else
      var rest := Keep(s[1..], p);
      assert s == [s[0]] + s[1..];
      if p(s[0]) then [s[0]] + rest else rest
  }

  lemma {:induction false} KeepIdempotent<T(!new)>(s: seq<T>, p: T -> bool)
    ensures Keep(Keep(s, p), p) == Keep(s, p)
  {
    if |s| > 0 {
      KeepIdempotent(s[1..], p);
    }
  }

  lemma {:induction false} KeepEverything<T(!new)>(s: seq<T>, p: T -> bool)
    requires forall x :: x in s ==> p(x)
    ensures Keep(s, p) == s
  {
    if |s| > 0 {
      KeepEverything(s[1..], p);
    }
  }

  /** Whether the game menu shows an entry for a query: a leading `/` asks for
      a case-insensitive substring match on the rest of the query, anything
      else for a case-insensitive prefix match on the whole query. */
  predicate GameMatches(entry: string, query: string) {
    if StartsWith(query, "/") then Contains(Lower(entry), Lower(query[1..]))
    else StartsWith(Lower(entry), Lower(query))
  }

  function GameFilter(all: seq<string>, query: string): (r: seq<string>)
    ensures IsSubsequence(r, all)
    ensures !StartsWith(query, "/") ==>
      forall e :: e in r <==> e in all && StartsWith(Lower(e), Lower(query))
    ensures StartsWith(query, "/") ==>
      forall e :: e in r <==> e in all && exists i :: OccursAt(Lower(e), Lower(query[1..]), i)
    ensures forall e :: multiset(r)[e] == if GameMatches(e, query) then multiset(all)[e] else 0
  {
    Keep(all, e => GameMatches(e, query))
  }

  /** Whether the system menu shows a system: a case-insensitive prefix match
      of the whole query on the system's name, with no substring mode. */
  predicate SystemMatches(s: SystemConfig, query: string) {
    StartsWith(Lower(s.name), Lower(query))
  }

  function SystemFilter(systems: seq<SystemConfig>, query: string): (r: seq<SystemConfig>)
    ensures IsSubsequence(r, systems)
    ensures forall s :: s in r <==> s in systems && StartsWith(Lower(s.name), Lower(query))
    ensures forall s :: multiset(r)[s] == if SystemMatches(s, query) then multiset(systems)[s] else 0
  {
    Keep(systems, s => SystemMatches(s, query))
  }

  lemma GameFilterIdempotent(all: seq<string>, query: string)
    ensures GameFilter(GameFilter(all, query), query) == GameFilter(all, query)
  {
    KeepIdempotent(all, e => GameMatches(e, query));
  }

  lemma SystemFilterIdempotent(systems: seq<SystemConfig>, query: string)
    ensures SystemFilter(SystemFilter(systems, query), query) == SystemFilter(systems, query)
  {
    KeepIdempotent(systems, s => SystemMatches(s, query));
  }

  /** The empty query and the bare `/` both show every entry. */
  lemma GameFilterKeepsAll(all: seq<string>)
    ensures GameFilter(all, "") == all
    ensures GameFilter(all, "/") == all
  {
    forall e ensures GameMatches(e, "") && GameMatches(e, "/") {
      EmptyOccursEverywhere(Lower(e));
    }
    KeepEverything(all, e => GameMatches(e, ""));
    KeepEverything(all, e => GameMatches(e, "/"));
  }

  /** The empty query shows every system. */
  lemma SystemFilterKeepsAll(systems: seq<SystemConfig>)
    ensures SystemFilter(systems, "") == systems
  {
    forall s ensures SystemMatches(s, "") {
      EmptyOccursEverywhere(Lower(s.name));
    }
    KeepEverything(systems, s => SystemMatches(s, ""));
  }
}

=== FILE: game_menu.dfy ===
/** The game menu of one system: a filter query, the entries it keeps, a
    cursor over those entries followed by a "<< Back" row, and a scroll
    window, advanced one key at a time. */
module GameMenu {
  import opened Runtime
  import opened Navigation
  import opened Keys
  import opened Filter
  import opened Scroll

  const BackLabel: string := "<< Back"

  /** The loop's variables between two keys. */
  datatype State = State(query: string, filtered: seq<string>, idx: int, scroll: int)

  /** What one key leads to. */
  datatype Outcome =
    | Continue(state: State)   // the loop goes round again
    | Cancelled                // Escape or `q`: back to the system menu
    | BackChosen               // Enter on "<< Back": back to the system menu
    | Chosen(entry: string)    // Enter on an entry: resolve and launch it
    | Crashed(error: Error)    // an exception escapes the menu

  /** One iteration of the loop: the terminal's height, read before drawing,
      and the key code `getch` returned. */
  datatype Press = Press(height: int, code: int)

  /** The rows the menu shows: the kept entries, then the back row. */
  function Rows(st: State): seq<string> {
    st.filtered + [BackLabel]
  }

  /** Rows available for the list in a terminal of the given height. */
  function Visible(height: int): int {
    height - 5
  }

  /** A state the loop can be in at the top of an iteration, as written: the
      filter is current and the cursor is on a kept entry, or on the back
      row only when nothing is kept. */
  predicate Inv(all: seq<string>, st: State) {
    st.filtered == GameFilter(all, st.query) && 0 <= st.idx < Max(1, |st.filtered|)
  }

  /** The same with the back row reachable: the cursor may rest on any row. */
  predicate InvIntended(all: seq<string>, st: State) {
    st.filtered == GameFilter(all, st.query) && 0 <= st.idx < |Rows(st)|
  }

  /** The state on entering the menu: empty query, every entry, top row. */
  function Start(all: seq<string>): (st: State)
    ensures Inv(all, st) && InvIntended(all, st)
    ensures st.filtered == all && st.idx == 0
  {
    GameFilterKeepsAll(all);
    State("", all, 0, 0)
  }

  /** The re-filter that ends every iteration that does not leave: filter the
      full list by the query, and send the cursor to the top when it is at or
      past `limit` rows of the new list (the kept entries as written, one more
      with the back row reachable). */
  function Refilter(all: seq<string>, query: string, idx: int, scroll: int, backReachable: bool): (st: State)
    ensures st.query == query && st.scroll == scroll
    ensures st.filtered == GameFilter(all, query)
    ensures var limit := if backReachable then |Rows(st)| else |st.filtered|;
            (idx < limit ==> st.idx == idx) && (idx >= limit ==> st.idx == 0)
  {
    var filtered := GameFilter(all, query);
    var limit := if backReachable then |filtered| + 1 else |filtered|;
    State(query, filtered, if idx >= limit then 0 else idx, scroll)
  }

  /** What a decoded key does to the state, the window having been pulled
      to the cursor already; the re-filter's limit is chosen by
      `backReachable`. */
  function Apply(all: seq<string>, st: State, vis: int, scroll: int, a: Action, backReachable: bool): (r: Outcome)
    requires vis >= 1
    ensures r.Continue? <==> a.Nav? || a.Erase? || a.Type? || a.Ignore? || a.RunEmulator? || a.Help?
    ensures r.Cancelled? <==> a.Cancel?
    ensures r.Continue? ==> r.state.filtered == GameFilter(all, r.state.query)
    ensures r.Continue? && 0 <= st.idx < |Rows(st)| ==>
              0 <= r.state.idx < Max(1, if backReachable then |Rows(r.state)| else |r.state.filtered|)
    ensures a.Nav? || a.Ignore? ==> r.Continue? && r.state.query == st.query
    ensures a.Erase? ==> r.Continue? && r.state.query == DropLast(st.query)
    ensures a.Type? ==> r.Continue? && r.state.query == st.query + [a.ch]
    ensures a.Enter? && st.idx == |st.filtered| ==> r == BackChosen
    ensures a.Enter? ==> (r.BackChosen? <==> st.idx == |st.filtered|)
    ensures 0 <= st.idx < |Rows(st)| ==> !r.Crashed?
    ensures a.Enter? && 0 <= st.idx < |st.filtered| ==> r == Chosen(st.filtered[st.idx])
    ensures a == Nav(End) && backReachable && st.filtered == GameFilter(all, st.query) ==>
              r.Continue? && r.state.idx == |r.state.filtered|
    ensures a == Nav(Up) && st.idx == 0 && backReachable && st.filtered == GameFilter(all, st.query) ==>
              r.Continue? && r.state.idx == |r.state.filtered|
  {
    var n := |Rows(st)|;
    match a
    case Nav(m) =>
      var idx := MoveCursor(m, st.idx, n, vis);
      var top := if m.End? then LastTop(n, vis) else scroll;
      Continue(Refilter(all, st.query, idx, top, backReachable))
    case Enter =>
      if st.idx == |st.filtered| then BackChosen
      else
        (match PyIndex(st.filtered, st.idx)
         case Ok(e) => Chosen(e)
         case Raised(err) => Crashed(err))
    case Cancel => Cancelled
    case Erase => Continue(Refilter(all, DropLast(st.query), st.idx, scroll, backReachable))
    case Type(c) => Continue(Refilter(all, st.query + [c], st.idx, scroll, backReachable))
    case _ => Continue(Refilter(all, st.query, st.idx, scroll, backReachable))
  }

  /** A move key puts the cursor where the move sends it over the rows
      before the re-filter, unless the re-filter's reset sends it to the top;
      End also scrolls to the last page. */
  lemma ApplyMovesCursor(all: seq<string>, st: State, vis: int, scroll: int, m: Move, backReachable: bool)
    requires vis >= 1
    ensures var r := Apply(all, st, vis, scroll, Nav(m), backReachable);
            var i := MoveCursor(m, st.idx, |Rows(st)|, vis);
            && r.Continue?
            && r.state.idx == (if i >= (if backReachable then |Rows(r.state)| else |r.state.filtered|) then 0 else i)
            && r.state.scroll == (if m.End? then LastTop(|Rows(st)|, vis) else scroll)
  {
  }

  /** Any other key that stays in the menu keeps the cursor and the window,
      unless the re-filter's reset sends the cursor to the top. */
  lemma ApplyKeepsCursor(all: seq<string>, st: State, vis: int, scroll: int, a: Action, backReachable: bool)
    requires vis >= 1 && (a.Erase? || a.Type? || a.Ignore?)
    ensures var r := Apply(all, st, vis, scroll, a, backReachable);
            && r.Continue?
            && r.state.idx == (if st.idx >= (if backReachable then |Rows(r.state)| else |r.state.filtered|) then 0 else st.idx)
            && r.state.scroll == scroll
  {
  }

  /** One iteration of the loop: pull the window to the cursor, read a key,
      act on it. */
  function StepWith(all: seq<string>, st: State, p: Press, backReachable: bool): (r: Outcome)
    requires Visible(p.height) >= 1
  {
    var vis := Visible(p.height);
    Apply(all, st, vis, FollowScroll(st.idx, st.scroll, |Rows(st)|, vis), DecodeGame(p.code), backReachable)
  }

  /** One iteration as the source runs it. From a reachable state it never
      raises, keeps the invariant, chooses the entry under the cursor, and
      takes the back row only when no entry is kept. */
  function Step(all: seq<string>, st: State, p: Press): (r: Outcome)
    requires Visible(p.height) >= 1
    ensures Inv(all, st) && r.Continue? ==> Inv(all, r.state)
    ensures Inv(all, st) ==> !r.Crashed?
    ensures Inv(all, st) && r.BackChosen? ==> |st.filtered| == 0
    ensures Inv(all, st) && r.Chosen? ==> st.idx < |st.filtered| && r.entry == st.filtered[st.idx]
    ensures r.Cancelled? <==> p.code == Escape || p.code == 'q' as int
    ensures r.Continue? ==> r.state.filtered == GameFilter(all, r.state.query)
    ensures IsBackspace(p.code) ==> r.Continue? && r.state.query == DropLast(st.query)
    ensures DecodeGame(p.code).Type? ==> r.Continue? && r.state.query == st.query + [p.code as char]
    ensures DecodeGame(p.code).Nav? ==> r.Continue? && r.state.query == st.query
  {
    StepWith(all, st, p, false)
  }

  /** One iteration with the back row reachable by the cursor. */
  function StepIntended(all: seq<string>, st: State, p: Press): (r: Outcome)
    requires Visible(p.height) >= 1
    ensures InvIntended(all, st) && r.Continue? ==> InvIntended(all, r.state)
    ensures InvIntended(all, st) ==> !r.Crashed?
    ensures InvIntended(all, st) && DecodeGame(p.code).Enter? ==>
              (r.BackChosen? <==> st.idx == |st.filtered|)
    ensures InvIntended(all, st) && p.code == KeyEnd ==> r.Continue? && r.state.idx == |r.state.filtered|
    ensures InvIntended(all, st) && DecodeGame(p.code) == Nav(Up) && st.idx == 0 ==>
              r.Continue? && r.state.idx == |r.state.filtered|
  {
    StepWith(all, st, p, true)
  }

  /** The invariant a run keeps. */
  predicate Reachable(all: seq<string>, st: State, backReachable: bool) {
    if backReachable then InvIntended(all, st) else Inv(all, st)
  }

  /** One iteration, as written or with the back row reachable. */
  function StepAs(all: seq<string>, st: State, p: Press, backReachable: bool): (r: Outcome)
    requires Visible(p.height) >= 1
    ensures Reachable(all, st, backReachable) && r.Continue? ==> Reachable(all, r.state, backReachable)
    ensures Reachable(all, st, backReachable) ==> !r.Crashed?
  {
    if backReachable then StepIntended(all, st, p) else Step(all, st, p)
  }

  /** The loop over a sequence of key presses, stopping at the first key
      that leaves the menu. */
  function Run(all: seq<string>, st: State, presses: seq<Press>, backReachable: bool): (r: Outcome)
    requires forall i :: 0 <= i < |presses| ==> Visible(presses[i].height) >= 1
    decreases |presses|
  {
    if |presses| == 0 then Continue(st)
    else
      var r := StepAs(all, st, presses[0], backReachable);
      if r.Continue? then Run(all, r.state, presses[1..], backReachable) else r
  }

  /** Whatever keys are pressed from a reachable state, the menu never
      raises, every state it comes back to is reachable, and the slice
      handed to the drawing at the top of the next iteration holds the
      cursor and stays inside the rows. */
  lemma {:induction false} RunKeepsInvariant(all: seq<string>, st: State, presses: seq<Press>,
                                             backReachable: bool, height: int)
    requires Reachable(all, st, backReachable)
    requires forall i :: 0 <= i < |presses| ==> Visible(presses[i].height) >= 1
    requires Visible(height) >= 1
    ensures !Run(all, st, presses, backReachable).Crashed?
    ensures Run(all, st, presses, backReachable).Continue? ==>
      var s := Run(all, st, presses, backReachable).state;
      && Reachable(all, s, backReachable)
      && Shows(FollowScroll(s.idx, s.scroll, |Rows(s)|, Visible(height)), s.idx, |Rows(s)|, Visible(height))
    decreases |presses|
  {
    if |presses| > 0 {
      var r := StepAs(all, st, presses[0], backReachable);
      if r.Continue? {
        RunKeepsInvariant(all, r.state, presses[1..], backReachable, height);
      }
    }
  }

  /** How many rows of the slice the drawing shows: rows start below the
      title (and below the filter line while a query is shown) and stop two
      rows above the bottom of the terminal. */
  function DrawnRows(height: int, query: string): (k: int)
    ensures |query| == 0 ==> k == Visible(height)
    ensures |query| > 0 ==> k == Visible(height) - 1
  {
    var firstRow := if |query| > 0 then 4 else 3;
    height - 2 - firstRow
  }

  /** With more entries kept than the first window holds, Down from the
      window's last row scrolls by one and leaves the cursor in the slice's
      last slot. The slice holds the cursor, but that slot is drawn exactly
      when no query is shown. */
  lemma QueryHidesLastSlot(all: seq<string>, st: State, height: int)
    requires Visible(height) >= 1 && Inv(all, st)
    requires st.idx == Visible(height) - 1 && st.scroll == 0 && |st.filtered| > Visible(height)
    ensures var vis := Visible(height);
            var r := Step(all, st, Press(height, KeyDown));
            && r.Continue? && r.state.idx == vis && r.state.query == st.query
            && var top := FollowScroll(r.state.idx, r.state.scroll, |Rows(r.state)|, vis);
               && Shows(top, r.state.idx, |Rows(r.state)|, vis)
               && (r.state.idx - top < DrawnRows(height, r.state.query) <==> |st.query| == 0)
  {
    var vis := Visible(height);
    assert FollowScroll(st.idx, 0, |Rows(st)|, vis) == 0;
    ApplyMovesCursor(all, st, vis, 0, Down, false);
  }

  /** As written, pressing End with one entry kept lands on the entry, not
      on the back row below it; with the back row reachable it lands there,
      and Enter then leaves the menu. */
  lemma EndSkipsBack(entry: string, height: int)
    requires Visible(height) >= 1
    ensures var r := Step([entry], Start([entry]), Press(height, KeyEnd));
            r.Continue? && r.state.filtered == [entry] && r.state.idx == 0
    ensures var r := StepIntended([entry], Start([entry]), Press(height, KeyEnd));
            && r.Continue? && r.state.idx == 1
            && StepIntended([entry], r.state, Press(height, 10)) == BackChosen
  {
    var st := Start([entry]);
    assert st.filtered == [entry];
    GameFilterKeepsAll([entry]);
  }
}

=== FILE: keys.dfy ===
/** What each key code returned by `getch` does, decided in the order of each
    menu's if/elif chain. The curses key constants carry their ncurses
    values. */
module Keys {
  import opened Navigation

  const KeyDown := 258
  const KeyUp := 259
  const KeyHome := 262
  const KeyBackspace := 263
  const KeyNextPage := 338
  const KeyPrevPage := 339
  const KeyEnd := 360

  const Escape := 27

  /** What a key press asks a menu to do. */
  datatype Action =
    | Nav(move: Move)     // cursor movement
    | Enter               // select the row under the cursor
    | Cancel              // Escape or `q`: leave the menu
    | Erase               // backspace: drop the query's last character
    | Type(ch: char)      // a printable character: extend the query
    | RunEmulator         // `r` in the system menu: start the emulator alone
    | Help                // `h` in the system menu: show the help screen
    | Ignore              // any other code: nothing but the re-filter

  predicate IsBackspace(code: int) {
    code == KeyBackspace || code == 127 || code == 8
  }

  predicate IsPrintable(code: int) {
    32 <= code <= 126
  }

  /** The game menu's chain. */
  function DecodeGame(code: int): (a: Action)
    ensures a.Type? <==> IsPrintable(code) && code !in {'q' as int, 'j' as int, 'k' as int}
    ensures a.Type? ==> a.ch as int == code
    ensures a.Erase? <==> IsBackspace(code)
    ensures a.Cancel? <==> code == Escape || code == 'q' as int
    ensures a.Enter? <==> code == 10 || code == 13
    ensures a == Nav(Up) <==> code == KeyUp || code == 'k' as int
    ensures a == Nav(Down) <==> code == KeyDown || code == 'j' as int
    ensures a == Nav(PageDown) <==> code == KeyNextPage
    ensures a == Nav(PageUp) <==> code == KeyPrevPage
    ensures a == Nav(Home) <==> code == KeyHome
    ensures a == Nav(End) <==> code == KeyEnd
    ensures !a.RunEmulator? && !a.Help?
  {
    if code == KeyUp || code == 'k' as int then Nav(Up)
    else if code == KeyDown || code == 'j' as int then Nav(Down)
    else if code == KeyNextPage then Nav(PageDown)
    else if code == KeyPrevPage then Nav(PageUp)
    else if code == KeyHome then Nav(Home)
    else if code == KeyEnd then Nav(End)
    else if code == 10 || code == 13 then Enter
    else if code == Escape || code == 'q' as int then Cancel
    else if IsBackspace(code) then Erase
    else if IsPrintable(code) then Type(code as char)
    else Ignore
  }

  /** The system menu's chain: the game menu's, with `r` and `h` claimed
      between Enter and the quit keys. */
  function DecodeSystem(code: int): (a: Action)
    ensures a.Type? <==> IsPrintable(code) && code !in {'q' as int, 'j' as int, 'k' as int, 'r' as int, 'h' as int}
    ensures a.RunEmulator? <==> code == 'r' as int
    ensures a.Help? <==> code == 'h' as int
    ensures code != 'r' as int && code != 'h' as int ==> a == DecodeGame(code)
  {
    if code == KeyUp || code == 'k' as int then Nav(Up)
    else if code == KeyDown || code == 'j' as int then Nav(Down)
    else if code == KeyNextPage then Nav(PageDown)
    else if code == KeyPrevPage then Nav(PageUp)
    else if code == KeyHome then Nav(Home)
    else if code == KeyEnd then Nav(End)
    else if code == 10 || code == 13 then Enter
    else if code == 'r' as int then RunEmulator
    else if code == 'h' as int then Help
    else if code == Escape || code == 'q' as int then Cancel
    else if IsBackspace(code) then Erase
    else if IsPrintable(code) then Type(code as char)
    else Ignore
  }
}

=== FILE: launch.dfy ===
/** From a chosen game to the emulator's argument vector: the folder-mode
    resolver that picks one file inside a game's folder, and the command
    line itself. */
module Launch {
  import opened Runtime
  import opened Text
  import opened Sorting
  import opened Config
  import Lister

  /** Folder-mode extensions, most preferred first. */
  const PreferredExts: seq<string> := [".cue", ".pbp", ".chd", ".iso", ".bin"]

  predicate EndsWithExt(name: string, ext: string) {
    EndsWith(Lower(name), ext)
  }

  /** The first name in the list that ends with ext, ignoring case. */
  function FirstWithExt(names: seq<string>, ext: string): (r: Option<nat>)
    ensures r.Some? ==> r.value < |names| && EndsWithExt(names[r.value], ext)
    ensures r.Some? ==> forall j :: 0 <= j < r.value ==> !EndsWithExt(names[j], ext)
    ensures r.None? ==> forall j :: 0 <= j < |names| ==> !EndsWithExt(names[j], ext)
  {
    if |names| == 0 then None
    else if EndsWithExt(names[0], ext) then Some(0)
    else match FirstWithExt(names[1..], ext)
      case None => None
      case Some(k) => Some(k + 1)
  }

  /** Some name of the folder ends with ext. */
  predicate AnyWithExt(names: seq<string>, ext: string) {
    exists n :: n in names && EndsWithExt(n, ext)
  }

  /** No name carries a preferred extension before position i. */
  predicate NoEarlierExt(names: seq<string>, k: nat, i: nat)
    requires i <= |PreferredExts|
  {
    forall j :: k <= j < i ==> !AnyWithExt(names, PreferredExts[j])
  }

  /** Tries the preferred extensions from position k on, each over the sorted
      names; yields the position of the extension that matched and of the
      name it matched first. */
  function ResolveFrom(sorted: seq<string>, k: nat): (r: Option<(nat, nat)>)
    requires k <= |PreferredExts|
    ensures r.None? ==> NoEarlierExt(sorted, k, |PreferredExts|)
    ensures r.Some? ==> k <= r.value.0 < |PreferredExts| && r.value.1 < |sorted|
    ensures r.Some? ==> NoEarlierExt(sorted, k, r.value.0)
    ensures r.Some? ==> EndsWithExt(sorted[r.value.1], PreferredExts[r.value.0])
    ensures r.Some? ==> forall q :: 0 <= q < r.value.1 ==> !EndsWithExt(sorted[q], PreferredExts[r.value.0])
    decreases |PreferredExts| - k
  {
    if k == |PreferredExts| then None
    else match FirstWithExt(sorted, PreferredExts[k])
      case Some(p) =>
        NameWithExt(sorted, p, PreferredExts[k]);
        Some((k, p))
      case None =>
        NoNameWithExt(sorted, PreferredExts[k]);
        var r := ResolveFrom(sorted, k + 1);
        NoEarlierExtExtends(sorted, k, if r.Some? then r.value.0 else |PreferredExts|);
        r
  }

  /** An extension no name carries joins the run of such extensions after it. */
  lemma NoEarlierExtExtends(names: seq<string>, k: nat, i: nat)
    requires k < i <= |PreferredExts|
    requires !AnyWithExt(names, PreferredExts[k]) && NoEarlierExt(names, k + 1, i)
    ensures NoEarlierExt(names, k, i)
  {
  }

  lemma NameWithExt(names: seq<string>, p: nat, ext: string)
    requires p < |names| && EndsWithExt(names[p], ext)
    ensures AnyWithExt(names, ext)
  {
    assert names[p] in names;
  }

  lemma NoNameWithExt(names: seq<string>, ext: string)
    requires forall j :: 0 <= j < |names| ==> !EndsWithExt(names[j], ext)
    ensures !AnyWithExt(names, ext)
  {
    forall n | n in names ensures !EndsWithExt(n, ext) {
      var j :| 0 <= j < |names| && names[j] == n;
    }
  }

  /** The file of a game folder that gets launched, given the folder's names:
      the earliest preferred extension that some name carries decides, and
      among the names carrying it the first in sorted order wins. No such
      name means nothing can be launched. */
  function Resolve(names: seq<string>): (r: Option<string>)
    ensures r.None? <==> NoEarlierExt(names, 0, |PreferredExts|)
    ensures r.Some? ==> r.value in names
    ensures r.Some? ==> exists i :: 0 <= i < |PreferredExts| && EndsWithExt(r.value, PreferredExts[i])
                          && NoEarlierExt(names, 0, i)
                          && (forall n :: n in names && EndsWithExt(n, PreferredExts[i]) ==> LexLe(r.value, n))
  {
    var sorted := Sort(names);
    SameMembers(names, sorted);
    match ResolveFrom(sorted, 0)
    case None => None
    case Some((i, p)) =>
      NameWithExt(sorted, p, PreferredExts[i]);
      FirstMatchIsLeast(sorted, p, PreferredExts[i]);
      Some(sorted[p])
  }

  /** A list and a permutation of it have the same members. */
  lemma SameMembers(a: seq<string>, b: seq<string>)
    requires multiset(a) == multiset(b)
    ensures forall n :: n in a <==> n in b
  {
    forall n ensures n in a <==> n in b {
      assert n in a <==> n in multiset(a);
      assert n in b <==> n in multiset(b);
    }
  }

  /** In a sorted list, the first name ending with ext is the least such. */
  lemma FirstMatchIsLeast(sorted: seq<string>, p: nat, ext: string)
    requires Sorted(sorted) && p < |sorted|
    requires forall q :: 0 <= q < p ==> !EndsWithExt(sorted[q], ext)
    ensures forall n :: n in sorted && EndsWithExt(n, ext) ==> LexLe(sorted[p], n)
  {
    forall n | n in sorted && EndsWithExt(n, ext) ensures LexLe(sorted[p], n) {
      var q :| 0 <= q < |sorted| && sorted[q] == n;
      if q >= p {
        FirstIsLeast(sorted, p, q);
      }
    }
  }

  /** A name made of a stem and a lower-case extension carries that
      extension, whatever the stem. */
  lemma StemWithExt(stem: string, ext: string)
    requires forall i :: 0 <= i < |ext| ==> !IsAsciiUpper(ext[i])
    ensures EndsWithExt(stem + ext, ext)
  {
    assert Lower(stem + ext)[|stem|..] == ext;
  }

  /** Names ending in different extensions of one length carry different
      extensions. */
  lemma NotOtherExt(stem: string, ext: string, other: string)
    requires |ext| == |other| && ext != other
    requires EndsWithExt(stem + ext, ext)
    ensures !EndsWithExt(stem + ext, other)
  {
  }

  /** A directory holding an `.iso` and a `.bin` file launches the `.iso`
      (`game.iso` over `game.bin`, say). */
  lemma IsoBeatsBin(isoStem: string, binStem: string)
    ensures Resolve([isoStem + ".iso", binStem + ".bin"]) == Some(isoStem + ".iso")
  {
    var iso, bin := isoStem + ".iso", binStem + ".bin";
    var names := [iso, bin];
    StemWithExt(isoStem, ".iso");
    StemWithExt(binStem, ".bin");
    assert AnyWithExt(names, PreferredExts[3]) by { assert iso in names; }
    var r := Resolve(names);
    if r.value == bin {
      var i :| 0 <= i < |PreferredExts| && EndsWithExt(r.value, PreferredExts[i]) && NoEarlierExt(names, 0, i);
      if i < 4 {
        BinCarriesNoEarlierExt(binStem, i);
      }
      assert false;
    }
  }

  lemma BinCarriesNoEarlierExt(stem: string, i: nat)
    requires i < 4
    ensures !EndsWithExt(stem + ".bin", PreferredExts[i])
  {
    StemWithExt(stem, ".bin");
    NotOtherExt(stem, ".bin", PreferredExts[i]);
  }

  /** A folder whose only file is a `.bin` (`track.bin`, say) launches it,
      the last preference. */
  lemma SoleBinResolves(stem: string)
    ensures Resolve([stem + ".bin"]) == Some(stem + ".bin")
  {
    StemWithExt(stem, ".bin");
    assert AnyWithExt([stem + ".bin"], PreferredExts[4]);
  }

  /** The command that launches a game: the emulator, `-L` and the core,
      then the content file. */
  function GameCommand(retroarch: string, core: string, rom: string): (argv: seq<string>)
    ensures |argv| == 4 && argv[0] == retroarch && argv[1] == "-L" && argv[2] == core && argv[3] == rom
  {
    [retroarch, "-L", core, rom]
  }

  /** What choosing a game leads to. */
  datatype Plan =
    | Run(argv: seq<string>)      // run the emulator, wait, then leave the game menu
    | NothingToLaunch(dir: string) // report the folder and leave the game menu
    | Crash(error: Error)          // an exception escapes the game menu

  /** The names `os.listdir` reports for a listed directory. */
  function Names(es: seq<Lister.Dirent>): (r: seq<string>)
    ensures |r| == |es| && forall i :: 0 <= i < |es| ==> r[i] == es[i].name
  {
    seq(|es|, i requires 0 <= i < |es| => es[i].name)
  }

  /** The plan for a chosen entry of a system's game menu. `expand` stands
      for `os.path.expanduser`; `folder` is the listing of the chosen entry,
      which only folder mode looks at. A flat-mode entry is the content file
      itself; a folder-mode entry is a directory whose resolved file is the
      content, and a folder that cannot be listed raises. */
  function PlanLaunch(retroarch: string, sys: SystemConfig, expand: string -> string,
                      entry: string, folder: Lister.Directory): (r: Plan)
    ensures r.Run? ==> |r.argv| == 4 && r.argv[0] == retroarch && r.argv[1] == "-L"
                       && r.argv[2] == expand(sys.core)
    ensures !sys.folderMode ==> r.Run? && r.argv[3] == Join(expand(sys.roms), entry)
    ensures sys.folderMode && !folder.Present? ==> r.Crash?
    ensures sys.folderMode && folder.Present? ==>
      (r.NothingToLaunch? <==> NoEarlierExt(Names(folder.entries), 0, |PreferredExts|))
    ensures r.NothingToLaunch? ==> r.dir == Join(expand(sys.roms), entry)
    ensures sys.folderMode && r.Run? ==>
      && folder.Present?
      && exists f :: f in Names(folder.entries) && Resolve(Names(folder.entries)) == Some(f)
                     && r.argv[3] == Join(Join(expand(sys.roms), entry), f)
  {
    var roms := expand(sys.roms);
    var core := expand(sys.core);
    if !sys.folderMode then Run(GameCommand(retroarch, core, Join(roms, entry)))
    else if !folder.Present? then Crash(OSError)
    else
      var dir := Join(roms, entry);
      match Resolve(Names(folder.entries))
      case None => NothingToLaunch(dir)
      case Some(f) => Run(GameCommand(retroarch, core, Join(dir, f)))
  }
}

=== FILE: lister.dfy ===
/** The entry lister at the top of the game menu: the names of a system's ROM
    directory that the menu offers, sorted. The directory is given as the
    records `os.listdir` together with `isfile`/`isdir` would report. */
module Lister {
  import opened Runtime
  import opened Text
  import opened Sorting

  /** One name in a directory, with what `os.path.isfile` and
      `os.path.isdir` say about it (both follow symbolic links). */
  datatype Dirent = Dirent(name: string, isFile: bool, isDir: bool)

  /** What listing a path finds: its entries, no such path
      (FileNotFoundError), or a path that cannot be listed for any other
      reason (another OSError: permission denied, not a directory). */
  datatype Directory =
    | Present(entries: seq<Dirent>)
    | Missing
    | Unlistable

  /** The ROM extensions flat mode accepts. */
  const ValidExts: seq<string> := [".zip", ".nes", ".sfc", ".smc", ".gba", ".gb", ".gbc"]

  /** `name.lower().endswith(VALID_EXTS)`. */
  predicate HasValidExt(name: string) {
    exists k :: 0 <= k < |ValidExts| && EndsWith(Lower(name), ValidExts[k])
  }

  /** Whether an entry is offered: folder mode keeps directories, flat mode
      keeps regular files with a recognised extension. */
  predicate Offered(e: Dirent, folderMode: bool) {
    if folderMode then e.isDir else e.isFile && HasValidExt(e.name)
  }

  /** The list comprehension: offered names in directory order. */
  function OfferedNames(es: seq<Dirent>, folderMode: bool): (r: seq<string>)
    ensures forall n :: n in r <==> exists e :: e in es && e.name == n && Offered(e, folderMode)
  {
    if |es| == 0 then []
    else
      var rest := OfferedNames(es[1..], folderMode);
      assert forall e :: e in es <==> e == es[0] || e in es[1..];
      (if Offered(es[0], folderMode) then [es[0].name] else []) + rest
  }

  /** The entries of a system's ROM directory as the game menu lists them. */
  function ListEntries(dir: Directory, folderMode: bool): (r: Result<seq<string>>)
    ensures dir.Missing? ==> r == Ok([])
    ensures dir.Unlistable? ==> r == Raised(OSError)
    ensures dir.Present? ==> r.Ok?
    ensures r.Ok? ==> Sorted(r.value)
    ensures dir.Present? ==> forall n :: n in r.value <==>
              exists e :: e in dir.entries && e.name == n && Offered(e, folderMode)
    ensures dir.Present? ==> multiset(r.value) == multiset(OfferedNames(dir.entries, folderMode))
  {
    match dir
    case Present(es) =>
      var names := OfferedNames(es, folderMode);
      var r := Sort(names);
      assert forall n :: n in r <==> n in names by {
        forall n ensures n in r <==> n in names {
          assert n in r <==> n in multiset(r);
          assert n in names <==> n in multiset(names);
        }
      }
      Ok(r)
    case Missing => Ok([])
    case Unlistable => Raised(OSError)
  }
}

=== FILE: navigation.dfy ===
/** The navigable list shared by both menus: cursor moves over a list of n
    rows, and editing the filter query. */
module Navigation {
  import opened Runtime

  datatype Move = Up | Down | PageUp | PageDown | Home | End

  /** The cursor after a move over n rows, a page being `vis` rows. Up and
      down wrap with Python's `%`, so they need at least one row (with none
      the source divides by zero); the page moves clamp and do not wrap. */
  function MoveCursor(m: Move, idx: int, n: int, vis: int): (r: int)
    requires m.Up? || m.Down? ==> n >= 1
    ensures n >= 1 && 0 <= idx < n && vis >= 0 ==> 0 <= r < n
    ensures n >= 1 && -1 <= idx < n && vis >= 1 ==> 0 <= r < n
    ensures m.Down? && idx == n - 1 ==> r == 0
    ensures m.Down? && -1 <= idx < n - 1 ==> r == idx + 1
    ensures m.Up? && 0 < idx <= n ==> r == idx - 1
    ensures m.Up? && -n < idx <= 0 ==> r == idx - 1 + n
    ensures m.Up? && n == 1 ==> r == 0
    ensures m.PageDown? ==> r == Min(idx + vis, n - 1)
    ensures m.PageDown? && vis >= 0 && idx <= n - 1 ==> idx <= r
    ensures m.PageUp? ==> r == Max(idx - vis, 0)
    ensures m.PageUp? && vis >= 0 && idx >= 0 ==> r <= idx
    ensures m.Home? ==> r == 0
    ensures m.End? ==> r == n - 1
  {
    match m
    case Up => FloorMod(idx - 1, n)
    case Down => FloorMod(idx + 1, n)
    case PageDown => Min(idx + vis, n - 1)
    case PageUp => Max(idx - vis, 0)
    case Home => 0
    case End => n - 1
  }

  /** Up undoes down and down undoes up on every row of a non-empty list. */
  lemma UpDownInverse(idx: int, n: int, vis: int)
    requires 0 <= idx < n
    ensures MoveCursor(Up, MoveCursor(Down, idx, n, vis), n, vis) == idx
    ensures MoveCursor(Down, MoveCursor(Up, idx, n, vis), n, vis) == idx
  {
  }

  /** `query[:-1]`: the query without its last character, and the empty
      query unchanged. */
  function DropLast(query: string): (r: string)
    ensures |query| == 0 ==> r == query
    ensures |query| > 0 ==> r + [query[|query| - 1]] == query
  {
    if |query| == 0 then query else query[..|query| - 1]
  }

  lemma DropLastUndoesAppend(query: string, c: char)
    ensures DropLast(query + [c]) == query
  {
    assert (query + [c])[..|query|] == query;
  }
}

=== FILE: runtime.dfy ===
/** Python run-time behaviour the launcher's menu loops depend on: the
    exceptions that can escape a loop, floor modulo, and list indexing that
    accepts negative positions. */
module Runtime {

  datatype Option<+T> = None | Some(value: T)

  /** An exception raised inside a menu loop that nothing in the loop catches;
      it unwinds to the top-level handler, which ends the program. */
  datatype Error =
    | ZeroDivision      // `x % 0`
    | IndexOutOfRange   // `xs[i]` with i outside -len(xs) .. len(xs)-1
    | OSError           // a directory that exists but cannot be listed

  /** A computation that either yields a value or raises. */
  datatype Result<+T> = Ok(value: T) | Raised(error: Error)

  /** Python's `a % n` for a positive modulus: it floors, so the remainder is
      never negative (Dafny's Euclidean `%` agrees with it when n > 0). */
  function FloorMod(a: int, n: int): (r: int)
    requires n > 0
    ensures 0 <= r < n
    ensures 0 <= a < n ==> r == a
    ensures -n <= a < 0 ==> r == a + n
    ensures a == n ==> r == 0
  {
    a % n
  }

  /** Python's `xs[i]`: negative positions count from the end, anything
      outside the list raises IndexError. */
  function PyIndex<T>(xs: seq<T>, i: int): (r: Result<T>)
    ensures r.Ok? <==> -|xs| <= i < |xs|
    ensures r.Raised? ==> r.error == IndexOutOfRange
    ensures 0 <= i < |xs| ==> r == Ok(xs[i])
    ensures -|xs| <= i < 0 ==> r == Ok(xs[|xs| + i])
    ensures r.Ok? ==> r.value in xs
  {
    if 0 <= i < |xs| then Ok(xs[i])
    else if -|xs| <= i < 0 then Ok(xs[|xs| + i])
    else Raised(IndexOutOfRange)
  }

  function Min(a: int, b: int): int { if a <= b then a else b }

  function Max(a: int, b: int): int { if a >= b then a else b }
}

=== FILE: scenario.dfy ===
/** A whole path through the launcher for a flat-mode system: list the ROM
    directory, type a query, press Enter, build the command. */
module Scenario {
  import opened Runtime
  import opened Text
  import opened Sorting
  import opened Config
  import opened Filter
  import opened Keys
  import Lister
  import Launch
  import GameMenu

  /** The directory reports `b.smc` and then `a.nes`, both regular files. */
  function RomDir(): Lister.Directory {
    Lister.Present([Lister.Dirent("b.smc", true, false), Lister.Dirent("a.nes", true, false)])
  }

  lemma ListsBoth()
    ensures Lister.ListEntries(RomDir(), false) == Ok(["a.nes", "b.smc"])
  {
    KeepsLowercase("a.nes");
    KeepsLowercase("b.smc");
    assert "a.nes"[1..] == Lister.ValidExts[1];
    assert "b.smc"[1..] == Lister.ValidExts[3];
    assert Lister.HasValidExt("a.nes");
    assert Lister.HasValidExt("b.smc");
    var es := RomDir().entries;
    assert Lister.OfferedNames(es, false) == ["b.smc", "a.nes"] by {
      assert es[1..] == [es[1]];
      assert Lister.OfferedNames(es[1..][1..], false) == [];
    }
    assert LexLe("a.nes", "b.smc");
    assert !LexLe("b.smc", "a.nes");
    assert Sort(["a.nes"]) == ["a.nes"];
    assert Insert("b.smc", ["a.nes"]) == ["a.nes", "b.smc"];
  }

  /** The query `b` keeps `b.smc` alone. */
  lemma FilterB()
    ensures GameFilter(["a.nes", "b.smc"], "b") == ["b.smc"]
  {
    var all := ["a.nes", "b.smc"];
    var p := e => GameMatches(e, "b");
    KeepsLowercase("a.nes");
    KeepsLowercase("b.smc");
    KeepsLowercase("b");
    assert !p("a.nes") by { assert "a.nes"[..1][0] == 'a' && "b"[0] == 'b'; }
    assert p("b.smc");
    assert all[1..] == ["b.smc"];
    assert Keep(["b.smc"], p) == ["b.smc"] by {
      assert ["b.smc"][1..] == [];
    }
  }

  /** Typing `b` in the game menu keeps `b.smc` alone. */
  lemma TypingBKeepsB(height: int)
    requires GameMenu.Visible(height) >= 1
    ensures GameMenu.Step(["a.nes", "b.smc"], GameMenu.Start(["a.nes", "b.smc"]), GameMenu.Press(height, 'b' as int))
            == GameMenu.Continue(GameMenu.State("b", ["b.smc"], 0, 0))
  {
    var all := ["a.nes", "b.smc"];
    var st := GameMenu.Start(all);
    assert st == GameMenu.State("", all, 0, 0);
    FilterB();
    assert "" + ['b'] == "b";
    assert DecodeGame('b' as int) == Type('b');
    assert GameMenu.Refilter(all, "b", 0, 0, false) == GameMenu.State("b", ["b.smc"], 0, 0);
  }

  /** Enter on `b.smc` runs the emulator on the ROM directory's `b.smc`. */
  lemma EnterLaunchesB(height: int, retroarch: string, sys: SystemConfig, expand: string -> string,
                       unused: Lister.Directory)
    requires GameMenu.Visible(height) >= 1 && !sys.folderMode
    ensures GameMenu.Step(["a.nes", "b.smc"], GameMenu.State("b", ["b.smc"], 0, 0), GameMenu.Press(height, 10))
            == GameMenu.Chosen("b.smc")
    ensures Launch.PlanLaunch(retroarch, sys, expand, "b.smc", unused)
            == Launch.Run([retroarch, "-L", expand(sys.core), Join(expand(sys.roms), "b.smc")])
  {
  }
}

=== FILE: scroll.dfy ===
/** The scroll window of each menu: the first of the `vis` rows drawn, over a
    list of n rows with the cursor at idx. */
module Scroll {
  import opened Runtime

  /** The highest first row that still fills the window. */
  function LastTop(n: int, vis: int): int {
    Max(0, n - vis)
  }

  /** The window holds the cursor and does not run past the list. */
  predicate Shows(top: int, idx: int, n: int, vis: int) {
    0 <= top <= LastTop(n, vis) && top <= idx < top + vis
  }

  /** The game menu's window: the previous window clamped into the list, then
      pulled just far enough to hold the cursor. */
  function FollowScroll(idx: int, scroll: int, n: int, vis: int): (top: int)
    requires vis >= 1
    ensures 0 <= idx < n ==> Shows(top, idx, n, vis)
    ensures idx >= 0 ==> top >= 0
  {
    var clamped := Max(0, Min(scroll, n - vis));
    if idx < clamped then idx
    else if idx >= clamped + vis then idx - vis + 1
    else clamped
  }

  /** A window already holding the cursor stays where it is. */
  lemma FollowScrollStable(idx: int, scroll: int, n: int, vis: int)
    requires vis >= 1 && Shows(scroll, idx, n, vis)
    ensures FollowScroll(idx, scroll, n, vis) == scroll
  {
  }

  /** The system menu's window: centred on the cursor, then clamped into the
      list. */
  function CenteredScroll(idx: int, n: int, vis: int): (top: int)
    requires vis >= 1
    ensures 0 <= top <= LastTop(n, vis)
    ensures 0 <= idx < n ==> Shows(top, idx, n, vis)
    ensures 0 <= idx < 1 ==> top <= idx < top + vis
  {
    Max(0, Max(0, Min(idx - vis / 2, n - vis)))
  }
}

=== FILE: sorting.dfy ===
/** Python's `sorted` on a list of names: strings compare lexicographically by
    code point, a proper prefix coming first. */
module Sorting {

  /** `a <= b` on Python strings. */
  predicate LexLe(a: string, b: string)
    decreases |a|
  {
    |a| == 0 || (|b| > 0 && (a[0] < b[0] || (a[0] == b[0] && LexLe(a[1..], b[1..]))))
  }

  lemma {:induction false} LexLeTotal(a: string, b: string)
    ensures LexLe(a, b) || LexLe(b, a)
    decreases |a|
  {
    if |a| > 0 && |b| > 0 && a[0] == b[0] {
      LexLeTotal(a[1..], b[1..]);
    }
  }

  lemma {:induction false} LexLeAntisymmetric(a: string, b: string)
    requires LexLe(a, b) && LexLe(b, a)
    ensures a == b
    decreases |a|
  {
    if |a| > 0 {
      LexLeAntisymmetric(a[1..], b[1..]);
      assert a == [a[0]] + a[1..] && b == [b[0]] + b[1..];
    }
  }

  lemma {:induction false} LexLeTransitive(a: string, b: string, c: string)
    requires LexLe(a, b) && LexLe(b, c)
    ensures LexLe(a, c)
    decreases |a|
  {
    if |a| > 0 && a[0] == b[0] && b[0] == c[0] {
      LexLeTransitive(a[1..], b[1..], c[1..]);
    }
  }

  /** Every name is at most every later one. */
  predicate Sorted(s: seq<string>) {
    forall i, j :: 0 <= i < j < |s| ==> LexLe(s[i], s[j])
  }

  /** Places x before the first element it does not exceed. */
  function Insert(x: string, s: seq<string>): (r: seq<string>)
    requires Sorted(s)
    ensures Sorted(r)
    ensures multiset(r) == multiset(s) + multiset{x}
  {
    if |s| == 0 then [x]
    else if LexLe(x, s[0]) then
      assert forall j :: 0 <= j < |s| ==> LexLe(x, s[j]) by {
        forall j | 0 <= j < |s| ensures LexLe(x, s[j]) {
          if j > 0 { LexLeTransitive(x, s[0], s[j]); }
        }
      }
      [x] + s
    else
      LexLeTotal(x, s[0]);
      var rest := Insert(x, s[1..]);
      assert s == [s[0]] + s[1..];
      assert forall y :: y in rest ==> LexLe(s[0], y) by {
        forall y | y in rest ensures LexLe(s[0], y) {
          assert y in multiset(rest);
          if y != x {
            assert y in multiset(s[1..]);
            var j :| 0 <= j < |s[1..]| && s[1..][j] == y;
            assert s[j + 1] == y;
          }
        }
      }
      [s[0]] + rest
  }

  /** `sorted(s)`: an ordered permutation of s. */
  function Sort(s: seq<string>): (r: seq<string>)
    ensures Sorted(r)
    ensures multiset(r) == multiset(s)
  {
    if |s| == 0 then []
    else
      assert s == [s[0]] + s[1..];
      Insert(s[0], Sort(s[1..]))
  }

  /** In a sorted list an element is at most every element after it, and
      at most itself. */
  lemma FirstIsLeast(s: seq<string>, i: int, j: int)
    requires Sorted(s) && 0 <= i < |s| && 0 <= j < |s| && i <= j
    ensures LexLe(s[i], s[j])
  {
    if i == j {
      LexLeTotal(s[i], s[i]);
    }
  }
}

=== FILE: system_menu.dfy ===
/** The top-level system menu: a prefix filter over the configured systems
    and a cursor over the systems it keeps, advanced one key at a time.
    Unlike the game menu it has no back row, and its window is recomputed
    around the cursor on every iteration instead of being kept. */
module SystemMenu {
  import opened Runtime
  import opened Navigation
  import opened Keys
  import opened Filter
  import opened Scroll
  import opened Config

  /** The loop's variables between two keys. */
  datatype State = State(query: string, filtered: seq<SystemConfig>, idx: int)

  /** What one key leads to. */
  datatype Outcome =
    | Continue(state: State)                       // the loop goes round again
    | Opened(system: SystemConfig, state: State)   // the system's game menu ran, then the loop goes on
    | RanEmulator(state: State)                    // `r`: the emulator ran alone, then the loop goes on
    | ShowedHelp(state: State)                     // `h`: the help screen was shown, then the loop goes on
    | Quit                                         // Escape or `q`: the program ends
    | Crashed(error: Error)                        // an exception escapes the menu
  {
    /** The loop goes round again, in the given state. */
    predicate Stays() {
      Continue? || Opened? || RanEmulator? || ShowedHelp?
    }
  }

  /** One iteration of the loop: the terminal's height and the key code. */
  datatype Press = Press(height: int, code: int)

  /** Rows available for the list in a terminal of the given height. */
  function Visible(height: int): int {
    height - 6
  }

  /** A state the loop can be in at the top of an iteration, as written: the
      filter is current and the cursor is below the end of the kept systems,
      though it may sit one before the first. */
  predicate Inv(systems: seq<SystemConfig>, st: State) {
    st.filtered == SystemFilter(systems, st.query) && -1 <= st.idx < Max(1, |st.filtered|)
  }

  /** The same with the cursor never before the first system. */
  predicate InvIntended(systems: seq<SystemConfig>, st: State) {
    st.filtered == SystemFilter(systems, st.query) && 0 <= st.idx < Max(1, |st.filtered|)
  }

  /** The state on starting: empty query, every system, top row. */
  function Start(systems: seq<SystemConfig>): (st: State)
    ensures Inv(systems, st) && InvIntended(systems, st)
    ensures st.filtered == systems && st.idx == 0
  {
    SystemFilterKeepsAll(systems);
    State("", systems, 0)
  }

  /** The first row of the window drawn at the top of an iteration. */
  function Window(st: State, height: int): (top: int)
    requires Visible(height) >= 1
    ensures 0 <= st.idx < Max(1, |st.filtered|) ==> top <= st.idx < top + Visible(height)
    ensures 0 <= top <= LastTop(|st.filtered|, Visible(height))
  {
    CenteredScroll(st.idx, |st.filtered|, Visible(height))
  }

  /** The re-filter that ends every iteration that does not quit: filter the
      systems by the query and send the cursor to the top when it is at or
      past the end of the new list (or, with `clampNegative`, before its
      start). */
  function Refilter(systems: seq<SystemConfig>, query: string, idx: int, clampNegative: bool): (st: State)
    ensures st.query == query && st.filtered == SystemFilter(systems, query)
    ensures 0 <= idx < |st.filtered| ==> st.idx == idx
    ensures idx >= |st.filtered| ==> st.idx == 0
    ensures idx < 0 ==> st.idx == if clampNegative then 0 else idx
  {
    var filtered := SystemFilter(systems, query);
    State(query, filtered, if idx >= |filtered| || (clampNegative && idx < 0) then 0 else idx)
  }

  /** A move key: up and down divide by the number of kept systems, the
      other moves clamp; the cursor then goes through the re-filter. */
  function Navigate(systems: seq<SystemConfig>, st: State, vis: int, m: Move, clampNegative: bool): (r: Outcome)
    requires vis >= 1
    ensures r.Continue? || r.Crashed?
    ensures r.Crashed? <==> |st.filtered| == 0 && (m.Up? || m.Down?)
    ensures r.Continue? ==> r.state.query == st.query && r.state.filtered == SystemFilter(systems, st.query)
    ensures r.Continue? ==> r.state.idx < Max(1, |r.state.filtered|)
    ensures r.Continue? && -1 <= st.idx ==> -1 <= r.state.idx
    ensures r.Continue? && clampNegative ==> 0 <= r.state.idx
  {
    var n := |st.filtered|;
    if (m.Up? || m.Down?) && n == 0 then Crashed(ZeroDivision)
    else Continue(Refilter(systems, st.query, MoveCursor(m, st.idx, n, vis), clampNegative))
  }

  /** What a decoded key does to the state. */
  function Apply(systems: seq<SystemConfig>, st: State, vis: int, a: Action, clampNegative: bool): (r: Outcome)
    requires vis >= 1
    ensures r.Quit? <==> a.Cancel?
    ensures r.RanEmulator? <==> a.RunEmulator?
    ensures r.ShowedHelp? <==> a.Help?
    ensures -1 <= st.idx < Max(1, |st.filtered|) ==>
              (r.Crashed? <==> |st.filtered| == 0 && (a == Nav(Up) || a == Nav(Down) || a.Enter?))
    ensures r.Stays() ==> r.state.filtered == SystemFilter(systems, r.state.query)
    ensures r.Stays() ==> r.state.idx < Max(1, |r.state.filtered|)
    ensures r.Stays() && -1 <= st.idx ==> -1 <= r.state.idx
    ensures r.Stays() && clampNegative ==> 0 <= r.state.idx
    ensures r.Stays() && !a.Erase? && !a.Type? ==> r.state.query == st.query
    ensures a.Erase? ==> r.Continue? && r.state.query == DropLast(st.query)
    ensures a.Type? ==> r.Continue? && r.state.query == st.query + [a.ch]
    ensures r.Opened? ==> a.Enter? && r.system in st.filtered
    ensures r.Opened? && 0 <= st.idx ==> st.idx < |st.filtered| && r.system == st.filtered[st.idx]
    ensures a.Enter? && 0 <= st.idx < |st.filtered| ==> r.Opened? && r.system == st.filtered[st.idx]
    ensures a.Enter? && st.idx == -1 && |st.filtered| > 0 ==>
              r.Opened? && r.system == st.filtered[|st.filtered| - 1]
  {
    var n := |st.filtered|;
    match a
    case Nav(m) => Navigate(systems, st, vis, m, clampNegative)
    case Enter =>
      (match PyIndex(st.filtered, st.idx)
       case Ok(s) => Opened(s, Refilter(systems, st.query, st.idx, clampNegative))
       case Raised(err) => Crashed(err))
    case RunEmulator => RanEmulator(Refilter(systems, st.query, st.idx, clampNegative))
    case Help => ShowedHelp(Refilter(systems, st.query, st.idx, clampNegative))
    case Cancel => Quit
    case Erase => Continue(Refilter(systems, DropLast(st.query), st.idx, clampNegative))
    case Type(c) => Continue(Refilter(systems, st.query + [c], st.idx, clampNegative))
    case Ignore => Continue(Refilter(systems, st.query, st.idx, clampNegative))
  }

  /** A move key puts the cursor where the move sends it over the kept
      systems, unless the re-filter's reset sends it to the top. Up and down
      need a kept system (with none they raise). */
  lemma ApplyMovesCursor(systems: seq<SystemConfig>, st: State, vis: int, m: Move, clampNegative: bool)
    requires vis >= 1
    requires |st.filtered| > 0 || !(m.Up? || m.Down?)
    ensures var r := Apply(systems, st, vis, Nav(m), clampNegative);
            var i := MoveCursor(m, st.idx, |st.filtered|, vis);
            && r.Continue?
            && r.state.idx == (if i >= |r.state.filtered| || (clampNegative && i < 0) then 0 else i)
  {
  }

  /** Every other key that comes back to the loop keeps the cursor, unless
      the re-filter's reset sends it to the top. */
  lemma ApplyKeepsCursor(systems: seq<SystemConfig>, st: State, vis: int, a: Action, clampNegative: bool)
    requires vis >= 1 && !a.Nav? && !a.Cancel?
    ensures var r := Apply(systems, st, vis, a, clampNegative);
            r.Stays() ==>
              r.state.idx == (if st.idx >= |r.state.filtered| || (clampNegative && st.idx < 0) then 0 else st.idx)
  {
  }

  /** The codes that need at least one kept system: up, down and Enter. */
  predicate NeedsARow(code: int) {
    DecodeSystem(code) == Nav(Up) || DecodeSystem(code) == Nav(Down) || DecodeSystem(code).Enter?
  }

  /** One iteration as the source runs it. From a reachable state it raises
      exactly when nothing is kept and the key needs a row, keeps the
      invariant, and opens only a kept system. */
  function Step(systems: seq<SystemConfig>, st: State, p: Press): (r: Outcome)
    requires Visible(p.height) >= 1
    ensures Inv(systems, st) && r.Stays() ==> Inv(systems, r.state)
    ensures Inv(systems, st) ==> (r.Crashed? <==> |st.filtered| == 0 && NeedsARow(p.code))
    ensures r.Opened? ==> r.system in st.filtered
    ensures r.Quit? <==> p.code == Escape || p.code == 'q' as int
    ensures r.RanEmulator? <==> p.code == 'r' as int
    ensures r.ShowedHelp? <==> p.code == 'h' as int
    ensures IsBackspace(p.code) ==> r.Continue? && r.state.query == DropLast(st.query)
    ensures DecodeSystem(p.code).Type? ==> r.Continue? && r.state.query == st.query + [p.code as char]
  {
    Apply(systems, st, Visible(p.height), DecodeSystem(p.code), false)
  }

  /** One iteration with negative cursors sent to the top as well. Every
      state it reaches has the cursor on a kept system (or on 0 when none is
      kept), and Enter opens the system the window highlights. */
  function StepIntended(systems: seq<SystemConfig>, st: State, p: Press): (r: Outcome)
    requires Visible(p.height) >= 1
    ensures InvIntended(systems, st) && r.Stays() ==> InvIntended(systems, r.state)
    ensures InvIntended(systems, st) ==> (r.Crashed? <==> |st.filtered| == 0 && NeedsARow(p.code))
    ensures InvIntended(systems, st) && r.Opened? ==>
              && st.idx < |st.filtered| && r.system == st.filtered[st.idx]
              && Shows(Window(st, p.height), st.idx, |st.filtered|, Visible(p.height))
  {
    Apply(systems, st, Visible(p.height), DecodeSystem(p.code), true)
  }

  /** The invariant a run keeps. */
  predicate Reachable(systems: seq<SystemConfig>, st: State, clampNegative: bool) {
    if clampNegative then InvIntended(systems, st) else Inv(systems, st)
  }

  /** One iteration, as written or with negative cursors sent to the top. */
  function StepAs(systems: seq<SystemConfig>, st: State, p: Press, clampNegative: bool): (r: Outcome)
    requires Visible(p.height) >= 1
    ensures Reachable(systems, st, clampNegative) && r.Stays() ==> Reachable(systems, r.state, clampNegative)
    ensures Reachable(systems, st, clampNegative) && r.Crashed? ==> NeedsARow(p.code)
  {
    if clampNegative then StepIntended(systems, st, p) else Step(systems, st, p)
  }

  /** The loop over a sequence of key presses, stopping at the first key
      that does not come back to the loop. */
  function Run(systems: seq<SystemConfig>, st: State, presses: seq<Press>, clampNegative: bool): (r: Outcome)
    requires forall i :: 0 <= i < |presses| ==> Visible(presses[i].height) >= 1
    decreases |presses|
  {
    if |presses| == 0 then Continue(st)
    else
      var r := StepAs(systems, st, presses[0], clampNegative);
      if r.Stays() then Run(systems, r.state, presses[1..], clampNegative) else r
  }

  /** Whatever keys are pressed from a reachable state, every state the loop
      comes back to is reachable. */
  lemma {:induction false} RunKeepsInvariant(systems: seq<SystemConfig>, st: State, presses: seq<Press>,
                                             clampNegative: bool)
    requires Reachable(systems, st, clampNegative)
    requires forall i :: 0 <= i < |presses| ==> Visible(presses[i].height) >= 1
    ensures var r := Run(systems, st, presses, clampNegative);
            r.Stays() ==> Reachable(systems, r.state, clampNegative)
    decreases |presses|
  {
    if |presses| > 0 {
      var r := StepAs(systems, st, presses[0], clampNegative);
      if r.Stays() {
        RunKeepsInvariant(systems, r.state, presses[1..], clampNegative);
      }
    }
  }

  /** From a reachable state, keys none of which needs a row never make the
      menu raise. */
  lemma {:induction false} RunRaisesOnlyWithoutRows(systems: seq<SystemConfig>, st: State, presses: seq<Press>,
                                                    clampNegative: bool)
    requires Reachable(systems, st, clampNegative)
    requires forall i :: 0 <= i < |presses| ==> Visible(presses[i].height) >= 1
    requires forall i :: 0 <= i < |presses| ==> !NeedsARow(presses[i].code)
    ensures !Run(systems, st, presses, clampNegative).Crashed?
    decreases |presses|
  {
    if |presses| > 0 {
      var r := StepAs(systems, st, presses[0], clampNegative);
      if r.Stays() {
        var rest := presses[1..];
        assert forall i :: 0 <= i < |rest| ==> rest[i] == presses[i + 1];
        RunRaisesOnlyWithoutRows(systems, r.state, rest, clampNegative);
      }
    }
  }

  /** As written: with no system name starting with `x`, typing `x`, End and
      backspace leaves the cursor at -1, a row the window never highlights,
      and Enter then opens the last system. */
  lemma HiddenCursorOpensLast(systems: seq<SystemConfig>, height: int)
    requires |systems| > 0 && Visible(height) >= 1
    requires forall s :: s in systems ==> !SystemMatches(s, "x")
    ensures Step(systems, Start(systems), Press(height, 'x' as int)) == Continue(State("x", [], 0))
    ensures Step(systems, State("x", [], 0), Press(height, KeyEnd)) == Continue(State("x", [], -1))
    ensures Step(systems, State("x", [], -1), Press(height, KeyBackspace)) == Continue(State("", systems, -1))
    ensures State("", systems, -1).idx < Window(State("", systems, -1), height)
    ensures var r := Step(systems, State("", systems, -1), Press(height, 10));
            r.Opened? && r.system == systems[|systems| - 1]
  {
    var vis := Visible(height);
    TypeUnmatched(systems, vis, false);
    EndOnEmpty(systems, vis, false);
    EraseUnmatched(systems, vis, -1, false);
  }

  /** With negative cursors sent to the top, the same keys leave the cursor
      on the first system, which Enter opens. */
  lemma ClampedCursorOpensFirst(systems: seq<SystemConfig>, height: int)
    requires |systems| > 0 && Visible(height) >= 1
    requires forall s :: s in systems ==> !SystemMatches(s, "x")
    ensures StepIntended(systems, Start(systems), Press(height, 'x' as int)) == Continue(State("x", [], 0))
    ensures StepIntended(systems, State("x", [], 0), Press(height, KeyEnd)) == Continue(State("x", [], 0))
    ensures StepIntended(systems, State("x", [], 0), Press(height, KeyBackspace)) == Continue(State("", systems, 0))
    ensures StepIntended(systems, State("", systems, 0), Press(height, 10)) == Opened(systems[0], State("", systems, 0))
  {
    var vis := Visible(height);
    TypeUnmatched(systems, vis, true);
    EndOnEmpty(systems, vis, true);
    EraseUnmatched(systems, vis, 0, true);
    SystemFilterKeepsAll(systems);
  }

  lemma TypeUnmatched(systems: seq<SystemConfig>, vis: int, clampNegative: bool)
    requires vis >= 1
    requires forall s :: s in systems ==> !SystemMatches(s, "x")
    ensures DecodeSystem('x' as int) == Type('x')
    ensures Apply(systems, State("", systems, 0), vis, Type('x'), clampNegative) == Continue(State("x", [], 0))
  {
    assert "" + ['x'] == "x";
    assert SystemFilter(systems, "x") == [];
  }

  lemma EndOnEmpty(systems: seq<SystemConfig>, vis: int, clampNegative: bool)
    requires vis >= 1
    requires forall s :: s in systems ==> !SystemMatches(s, "x")
    ensures DecodeSystem(KeyEnd) == Nav(End)
    ensures Apply(systems, State("x", [], 0), vis, Nav(End), clampNegative)
              == Continue(State("x", [], if clampNegative then 0 else -1))
  {
    assert SystemFilter(systems, "x") == [];
  }

  lemma EraseUnmatched(systems: seq<SystemConfig>, vis: int, idx: int, clampNegative: bool)
    requires vis >= 1 && |systems| > 0 && -1 <= idx <= 0
    requires clampNegative ==> idx == 0
    ensures DecodeSystem(KeyBackspace) == Erase
    ensures Apply(systems, State("x", [], idx), vis, Erase, clampNegative) == Continue(State("", systems, idx))
  {
    assert DropLast("x") == "";
    SystemFilterKeepsAll(systems);
  }
}

=== FILE: text.dfy ===
/** The string operations the launcher applies to names and queries:
    `str.lower()`, `startswith`, `endswith`, the `in` substring test, and
    `os.path.join`. Lower-casing is modelled on ASCII only. */
module Text {

  predicate IsAsciiUpper(c: char) {
    'A' <= c <= 'Z'
  }

  /** `c.lower()` for an ASCII character; every other character is kept. */
  function LowerChar(c: char): (r: char)
    ensures !IsAsciiUpper(r)
    ensures !IsAsciiUpper(c) ==> r == c
    ensures IsAsciiUpper(c) ==> r as int - c as int == 'a' as int - 'A' as int
  {
    if IsAsciiUpper(c) then (c as int + ('a' as int - 'A' as int)) as char else c
  }

  /** `s.lower()`, character by character. */
  function Lower(s: string): (r: string)
    ensures |r| == |s|
    ensures forall i :: 0 <= i < |s| ==> r[i] == LowerChar(s[i])
    ensures forall i :: 0 <= i < |r| ==> !IsAsciiUpper(r[i])
  {
    seq(|s|, i requires 0 <= i < |s| => LowerChar(s[i]))
  }

  /** A string with no upper-case ASCII letter is its own lower case. */
  lemma KeepsLowercase(s: string)
    requires forall i :: 0 <= i < |s| ==> !IsAsciiUpper(s[i])
    ensures Lower(s) == s
  {
  }

  /** `s.startswith(p)`. */
  predicate StartsWith(s: string, p: string) {
    |p| <= |s| && s[..|p|] == p
  }

  /** `s.endswith(p)`. */
  predicate EndsWith(s: string, p: string) {
    |p| <= |s| && s[|s| - |p|..] == p
  }

  /** The needle occurs in s at position i. */
  predicate OccursAt(s: string, needle: string, i: int) {
    0 <= i && i + |needle| <= |s| && s[i..i + |needle|] == needle
  }

  /** `needle in s`, computed by trying each start position in turn. */
  function Contains(s: string, needle: string): (r: bool)
    ensures r <==> exists i :: OccursAt(s, needle, i)
    decreases |s|
  {
    if StartsWith(s, needle) then
      assert OccursAt(s, needle, 0);
      true
    else if |s| == 0 then
      false
    else
      OccursInTail(s, needle);
      Contains(s[1..], needle)
  }

  /** Once the needle is known not to start s, it occurs in s exactly when it
      occurs in s without its first character. */
  lemma OccursInTail(s: string, needle: string)
    requires |s| > 0 && !StartsWith(s, needle)
    ensures (exists i :: OccursAt(s, needle, i)) <==> (exists j :: OccursAt(s[1..], needle, j))
  {
    if i :| OccursAt(s, needle, i) {
      assert i != 0;
      assert s[1..][i - 1..i - 1 + |needle|] == s[i..i + |needle|];
      assert OccursAt(s[1..], needle, i - 1);
    }
    if j :| OccursAt(s[1..], needle, j) {
      assert s[1..][j..j + |needle|] == s[j + 1..j + 1 + |needle|];
      assert OccursAt(s, needle, j + 1);
    }
  }

  lemma EmptyOccursEverywhere(s: string)
    ensures StartsWith(s, "")
    ensures Contains(s, "")
  {
    assert OccursAt(s, "", 0);
  }

  /** `os.path.join(a, b)` on POSIX: an absolute b replaces a, otherwise b is
      appended after a separator unless a is empty or already ends in one. */
  function Join(a: string, b: string): (r: string)
    ensures EndsWith(r, b)
    ensures StartsWith(b, "/") ==> r == b
    ensures !StartsWith(b, "/") ==> StartsWith(r, a)
    ensures !StartsWith(b, "/") ==>
              |r| == |a| + |b| || (|r| == |a| + |b| + 1 && r[|a|] == '/')
    ensures !StartsWith(b, "/") ==>
              (|r| == |a| + |b| + 1 <==> |a| > 0 && a[|a| - 1] != '/')
  {
    if StartsWith(b, "/") then b
    else if |a| == 0 || a[|a| - 1] == '/' then a + b
    else a + "/" + b
  }
}
